=== FILE: README.md ===
# KY-040 encoder driver and motor-control task pipeline, in Dafny

This project models the two pieces of logic in an ESP32 motor-position
controller.

The first is the **KY-040 rotary encoder driver**. The model keeps its state
after the GPIO and critical-section calls are taken away:

- a signed 32-bit tick counter kept in `[0, span)`;
- the inclusive angle range `[ang_min, ang_max]`, with `span = ang_max - ang_min + 1`;
- a debounce window and the timestamp of the last accepted clock edge;
- a direction-reversal flag.

The clock-edge handler has a debounce gate, then steps the counter by ±1 and
wraps it. The model also covers the button handler, the task-level API
(create, set_reverse, reset_zero, set_range, get_ticks, get_angle) and the
process-wide "install the ISR service once" flag. C's `%` truncates toward
zero, but Dafny's `%` is Euclidean. `CTypes.CRem` models the C operator. The
lemmas then prove that the driver's sign-correcting steps compute the
Euclidean remainder.

The second is the **application task pipeline**. Five bounded FIFO queues
connect the tasks:

| queue | carries | depth |
|---|---|---|
| control | desired angles | 3 |
| feedback | current angles | 3 |
| speed | motor commands | 3 |
| error | backpressure reports | 2 |
| display | display samples | 3 |

Each task iteration is modelled as one atomic transition over the whole
application state:

- **Samplers** try to send a sample without blocking. If the queue is full,
  they report `{task name, queue}` on the error queue (the name as
  `pcTaskGetName` returns it, cut to FreeRTOS's 15-character limit:
  `Task Send Desir`, `Task Send Curre`) and raise the recovery
  task to priority 7.
- **Controller**: takes one desired and one current sample. In the code each
  receive waits without limit, so a cycle runs only once both samples are
  there. The model lets the cycle also run on empty queues, keeping the
  previous value of a missing sample (0 at start-up); this admits more runs
  than the program has. It then sends
  the motor command `{speed = |desired - current|, forward iff desired >= current}`
  and the display sample `(current, desired)`. Each send uses the same
  report-on-full rule.
- **Recovery task**: takes one report. If the report names a task, it empties
  the queue named in the report and drops back to priority 1.
- **Actuation task**: turns each command into `set_direction` followed by
  `set_speed`.

The code has no PID terms, dead-band, clamp or stop path, so neither does the
model.

When the display queue is full, the code reports the *current-angle* queue,
not the display queue (`main/app_main.c:193`). The model keeps this behaviour.
`AppProps.DisplayBackpressureResetsFeedbackQueue` proves what follows from it:
recovery throws away the pending current-angle samples, and the display queue
stays full.

Files:

- `ctypes.dfy` (`CTypes`): C integer widths, `Option`, C remainder and
  Euclidean-remainder lemmas.
- `ky040.dfy` (`Ky040`): the encoder driver.
- `ky040_props.dfy` (`Ky040Props`): reachable-state invariant, runs of
  edges, debounce, worked examples.
- `bounded_queue.dfy` (`BoundedQueue`): the FreeRTOS queue operations the
  application uses.
- `app.dfy` (`App`): the tasks of the application.
- `app_props.dfy` (`AppProps`): pipeline invariant and
  backpressure/recovery scenarios.

## Model

| member | source | states |
|---|---|---|
| CTypes.CRem | components/encoder_driver/encoder_driver.c:34 | C's truncating `%`: magnitude below the divisor, sign of the dividend, congruent to the dividend |
| CTypes.AddIfNegativeIsEuclidean | components/encoder_driver/encoder_driver.c:34-35 | `t = a % n; if (t < 0) t += n;` equals the Euclidean remainder for every dividend |
| CTypes.AddThenRemIsEuclidean | components/encoder_driver/encoder_driver.c:152 | `(a % n + n) % n` with C remainders equals the Euclidean remainder for every dividend |
| Ky040.CheckRange | components/encoder_driver/encoder_driver.c:74-76 | the range is accepted iff min <= max and the pair is not (0, 65535); the accepted span is max - min + 1, at least 1 |
| Ky040.InstallIsrServiceOnce | components/encoder_driver/encoder_driver.c:61-70 | once the flag is set, returns OK without calling install; ESP_ERR_INVALID_STATE counts as success; the flag is set iff OK is returned; any other error is passed through |
| Ky040.Create | components/encoder_driver/encoder_driver.c:72-92 | null cfg/out or a bad range gives INVALID_ARG with no install attempt; success iff those pass, install succeeds and the allocation succeeds; an install error is returned with the flag clear; a failed allocation gives NO_MEM with the flag already set; a new encoder satisfies the invariant, has ticks 0 and span = max - min + 1, and copies its config |
| Ky040.DebounceOk | components/encoder_driver/encoder_driver.c:25-31 | a zero window accepts and leaves the timestamp alone; otherwise accepts iff now - last >= window, and moves the timestamp only on acceptance |
| Ky040.EdgeDelta | components/encoder_driver/encoder_driver.c:43-45 | delta is ±1, and +1 exactly when (DT level is 0) xor reverse |
| Ky040.ClockEdge | components/encoder_driver/encoder_driver.c:39-52 | keeps 0 <= ticks < span (span 1 included); an accepted edge gives ticks = (ticks + delta) mod span; a rejected edge changes nothing; with a nonzero window an accepted edge records its time; the range, window and flag are untouched |
| Ky040.WrapStep | components/encoder_driver/encoder_driver.c:48-50 | the handler's two conditional corrections equal the Euclidean remainder of a counter in range moved by ±1 |
| Ky040.ButtonEdge | components/encoder_driver/encoder_driver.c:54-59 | zeroes ticks and nothing else; afterwards the angle is ang_min |
| Ky040.SetReverse | components/encoder_driver/encoder_driver.c:129-132 | changes only the flag; a null handle stays null |
| Ky040.ResetZero | components/encoder_driver/encoder_driver.c:134-139 | zeroes ticks and nothing else; get_angle then returns ang_min whatever the previous count was |
| Ky040.Rescale | components/encoder_driver/encoder_driver.c:151-152 | every int32 counter is mapped into [0, span) and equals its Euclidean remainder; a counter already in range is kept |
| Ky040.SetRange | components/encoder_driver/encoder_driver.c:141-155 | a null handle gives INVALID_ARG; a rejected range leaves the encoder unchanged; an accepted one yields a valid encoder with the new range, ticks reduced mod the new span, and no other field changed |
| Ky040.GetTicks | components/encoder_driver/encoder_driver.c:157-164 | 0 for a null handle; otherwise exactly the stored counter, which for a valid encoder lies in [0, span) |
| Ky040.AngleMod | components/encoder_driver/encoder_driver.c:33-37 | for every int32 count, negative ones included, the angle lies in [ang_min, ang_max] and equals ang_min + (count mod span); the 16-bit cast never truncates |
| Ky040.GetAngle | components/encoder_driver/encoder_driver.c:166-170 | 0 for a null handle, otherwise an angle in [ang_min, ang_max] equal to ang_min + ticks mod span |
| Ky040Props.Run | components/encoder_driver/encoder_driver.c:47-51 | every sequence of clock edges, button presses, resets, reversals and range changes keeps the invariant, so the reported angle stays in range |
| Ky040Props.CreatedThenRunAngleInRange | components/encoder_driver/encoder_driver.c:86-92 | an encoder created successfully and then driven by any event sequence always reports an angle within its range |
| Ky040Props.EdgesWithoutDebounceSumUp | components/encoder_driver/encoder_driver.c:41-51 | with debouncing off, a run of edges moves the counter by the sum of their deltas modulo the span |
| Ky040Props.ReverseNegatesNetDelta | components/encoder_driver/encoder_driver.c:45 | flipping the reversal flag negates the net delta of any later run of edges |
| Ky040Props.SetReverseNotRetroactive | components/encoder_driver/encoder_driver.c:129-132 | set_reverse keeps ticks and angle; the next accepted edge with the same DT level moves the other way |
| Ky040Props.DebouncedPairCountsOnce | components/encoder_driver/encoder_driver.c:25-31 | two edges closer than the window give at most one tick change: if the first is accepted, the second is dropped |
| Ky040Props.SetRangeValidatesLikeCreate | components/encoder_driver/encoder_driver.c:143-145 | set_range rejects exactly the ranges that create rejects |
| Ky040Props.InstallOnceIsIdempotent | components/encoder_driver/encoder_driver.c:62 | after a successful install, the next call returns OK without calling install |
| Ky040Props.WorkedExamples | components/encoder_driver/encoder_driver.c:33-37 | span 91 with tick -1 maps to ang_min + 90; span 91 with tick 85 rescaled to span 10 gives 5; (0, 65535) is the rejected pair |
| BoundedQueue.Make | main/app_main.c:52-56 | a new queue is empty, has the given depth, and has room iff the depth is at least 1 |
| BoundedQueue.TrySend | main/app_main.c:104 | a send succeeds iff the queue is not full; on success the item is appended; on failure the queue is unchanged |
| BoundedQueue.TryReceive | main/app_main.c:157 | yields the head iff the queue is non-empty and removes exactly it; an empty queue is unchanged |
| BoundedQueue.Reset | main/app_main.c:230 | leaves the queue empty with the same depth, so a queue of depth >= 1 has room |
| BoundedQueue.SendAllWithRoomAppends | main/app_main.c:104 | while there is room, sends lose nothing and keep their order |
| BoundedQueue.DrainYieldsItemsInOrder | main/app_main.c:157 | receiving until a receive yields nothing hands out exactly the queued items, head first |
| BoundedQueue.SendAllThenDrainRoundTrip | main/app_main.c:104 | for any queue and any items, sends made while there is room and then receives until empty give back the old contents followed by every item sent, in order |
| BoundedQueue.SendThenReceiveRoundTrip | main/app_main.c:163 | worked example: two items sent to an empty queue are received in the order they were sent |
| App.Init | main/app_main.c:52-62 | queues created with depths 3/3/3/2/3 and empty; held samples 0; recovery priority 1 |
| App.Report | main/app_main.c:107-111 | one non-blocking report `{name, queue}`, appended if the error queue has room and lost otherwise; the priority becomes 7 either way; nothing else changes |
| App.ResetQueue | main/app_main.c:230 | the named queue becomes empty with its depth kept; every other queue, the held samples, the priority and the motor calls are unchanged |
| App.RecoveryStep | main/app_main.c:215-236 | no report means no change; a named report is taken off the error queue, empties the queue it names, sets priority 1 and leaves every other queue unchanged; an unnamed report is consumed and ignored |
| App.SamplerStep | main/app_main.c:104-112 | with room, the sample is appended and nothing else changes; when full, the queue is unchanged and the step reports that queue |
| App.Command | main/app_main.c:174-176 | speed = abs(desired - current) (fits in uint8 without wrap); forward iff desired >= current |
| App.CommandAimsAtDesired | main/app_main.c:174-176 | from the current angle, the command's direction and speed lead back to exactly the desired angle |
| App.CommandZeroIffAtTarget | main/app_main.c:174-176 | speed is 0 iff the angles are equal, and that command is forward at 0 (no stop) |
| App.EmitCommand | main/app_main.c:178-187 | sends the command, or reports the speed queue when it is full |
| App.EmitDisplay | main/app_main.c:188-197 | sends the display sample, or reports the current-angle queue when the display queue is full |
| App.ControllerCycle | main/app_main.c:144-197 | held values take a received sample or keep the previous one; the command is built from the held pair; the display sample is (current, desired); the priority is raised iff a send failed; the error queue receives a speed-queue report if the speed queue was full, then a current-angle-queue report if the display queue was full, each lost if the error queue is full; receives consume one item each; every queue keeps its depth |
| App.ActuationStep | main/app_main.c:201-213 | each received command appends set_direction(dir) then set_speed(speed), and nothing else changes |
| App.DisplayStep | main/app_main.c:238-249 | takes one sample off the display queue |
| AppProps.PairedAppend | main/app_main.c:206-210 | concatenating two well-paired call traces gives a well-paired trace |
| AppProps.PairedIsEven | main/app_main.c:206-210 | a well-paired trace has even length |
| AppProps.ControllerKeepsInv | main/app_main.c:174-176 | a controller cycle keeps the pipeline invariant; every queued command with speed 0 is forward |
| AppProps.ActuationKeepsInv | main/app_main.c:206-210 | an actuation step keeps the invariant; motor calls come in (direction, speed) pairs |
| AppProps.Step | main/app_main.c:58-63 | every task iteration keeps the queues within their depths, the call trace paired, and the priority in {1, 7} |
| AppProps.Run | main/app_main.c:58-63 | any interleaving of task iterations keeps the invariant, and the motor-call trace has even length |
| AppProps.InitSatisfiesInv | main/app_main.c:52-62 | the start-up state satisfies the invariant |
| AppProps.SamplerBackpressure | main/app_main.c:130-138 | a full target queue is unchanged; exactly one report naming it is filed if the error queue has room, and it is silently lost otherwise; the priority becomes 7 either way |
| AppProps.BackpressureRecoveredBySingleReset | main/app_main.c:221-232 | report, then one recovery iteration, then resend: the queue is emptied, the priority goes 7 then 1, and the resend is the queue's only item |
| AppProps.SendAfterRecoveryPasses | main/app_main.c:230 | after recovery of a sampler's queue, the next send to it succeeds |
| AppProps.DisplayBackpressureResetsFeedbackQueue | main/app_main.c:188-196 | a full display queue makes recovery empty the current-angle queue, and the display queue stays full |
| AppProps.DisplayMatchesCommand | main/app_main.c:171-176 | the display sample of a cycle is the exact pair its motor command was computed from |
| AppProps.HoldStartsAtZero | main/app_main.c:146-168 | on the hold branch (reached only in the model, see Left out), the held values start at 0 and a later desired sample replaces only the desired value |
| AppProps.EndToEndExample | main/app_main.c:206-209 | desired 30 and current 0 reach the motor as set_direction(forward) then set_speed(30), with no gain applied |

## Left out

- GPIO pin numbers and pin configuration in `ky040_create`, ISR handler registration, `ESP_ERROR_CHECK` aborts, and `ky040_delete`. The `calloc` result is a parameter of `Ky040.Create`. These are hardware setup and resource release with no logic over the modelled state.
- `portMUX` critical sections, interrupt preemption and FreeRTOS scheduling. Each operation is one atomic step. The reads of the debounce timestamp and the reverse flag outside the critical section (`encoder_driver.c:41,45`) are not modelled as races.
- Ky040.DebounceOk: timer readings are unbounded integers. The source uses `int64_t` microseconds since boot, which are non-negative, so `now - last` cannot overflow.
- Ky040.ClockEdge: requires the driver invariant. Outside it, `ticks += delta` could overflow `int32_t`, which C leaves undefined. Every encoder produced by create and the other operations satisfies the invariant.
- Blocking waits (`portMAX_DELAY`, `vTaskDelay`). A receive on an empty queue is modelled as a failed receive. In `vTaskProcessed` that takes the hold branch (`main/app_main.c:160-162,166-168`), which the program never reaches, because its receives wait without limit. The model's controller step is therefore enabled in more states than the program's; every invariant proved over all interleavings (`AppProps.Run`) still holds of the program's runs, while `AppProps.HoldStartsAtZero` describes a run only the model has. A blocked recovery, actuation or display task is modelled as a step that changes nothing.
- The sampler values. The samplers use a constant 10 or `rand() % 360`, held in a `uint32_t` and sent into one-byte queue items, so which byte is copied depends on the ABI. Samples are arbitrary `uint8` values.
- Logging, `printf` and the display task's rendering. The display task only takes its sample off the queue.
- The motor driver (`motor_driver.c`, `app_driver.c`). These are LEDC/GPIO wrappers; their calls are recorded as a trace of `SetDirection`/`SetSpeed`.
- The encoder-to-controller data flow. The application never creates an encoder, and `app_driver_encoder_get_count` is declared but never defined.
- PID gains, integral windup, dead-band, duty clamp and the explicit stop on zero speed. These are not implemented by the code.

=== FILE: app.dfy ===
/** The task/queue pipeline of the application, run sequentially: each
    task iteration is one atomic transition over the whole application
    state.  Two samplers feed the desired-angle and current-angle queues;
    the controller turns a (desired, current) pair into a motor command and
    a display sample; a full queue is reported to the recovery task, which
    empties the queue named in the report; the actuation task turns each
    motor command into two motor driver calls.

    The controller drives the motor with speed |desired - current| and
    direction "forward" when desired >= current; there is no gain, integral
    term, dead-band or output clamp. */
module App {
  import opened CTypes
  import opened BoundedQueue

  /** The five queues created at start-up. */
  datatype QueueId = ControlQ | FeedbackQ | SpeedQ | ErrorQ | DisplayQ

  /** The depth each queue is created with. */
  function Depth(id: QueueId): nat
  {
    match id
    case ErrorQ => 2
    case _ => 3
  }

  datatype AngleData = AngleData(current: uint8, desired: uint8)

  /** A motor command; `direction` is true for forward. */
  datatype MotorCommand = MotorCommand(speed: uint8, direction: bool)

  /** A backpressure report: the reporting task's name (a possibly-null C
      string) and the queue it reports. */
  datatype TaskInfo = TaskInfo(name: Option<string>, queue: QueueId)

  /** A call into the motor driver. */
  datatype MotorCall = SetDirection(forward: bool) | SetSpeed(speed: uint8)

  /** The names the tasks read back with `pcTaskGetName`: the creation
      names cut to 15 characters, FreeRTOS's default name limit of 16
      bytes including the terminator. */
  const DesiredTaskName: string := "Task Send Desir"
  const CurrentTaskName: string := "Task Send Curre"
  const ProcessedTaskName: string := "Task Processed"

  /** The recovery task's priority at creation and after a reset, and the
      priority a producer raises it to on backpressure. */
  const BasePriority: nat := 1
  const RaisedPriority: nat := 7

  datatype AppState = AppState(
    control: Queue<uint8>,
    feedback: Queue<uint8>,
    speed: Queue<MotorCommand>,
    errors: Queue<TaskInfo>,
    display: Queue<AngleData>,
    desiredHeld: uint8,
    currentHeld: uint8,
    recoveryPriority: nat,
    motorCalls: seq<MotorCall>)

  function Len(s: AppState, id: QueueId): nat
  {
    match id
    case ControlQ => |s.control.items|
    case FeedbackQ => |s.feedback.items|
    case SpeedQ => |s.speed.items|
    case ErrorQ => |s.errors.items|
    case DisplayQ => |s.display.items|
  }

  /** The queue `id` is the same in both states, items and depth. */
  predicate SameQueue(s: AppState, r: AppState, id: QueueId)
  {
    match id
    case ControlQ => r.control == s.control
    case FeedbackQ => r.feedback == s.feedback
    case SpeedQ => r.speed == s.speed
    case ErrorQ => r.errors == s.errors
    case DisplayQ => r.display == s.display
  }

  /** Every queue has its creation depth and holds no more than that. */
  predicate Wf(s: AppState)
  {
    && s.control.cap == Depth(ControlQ) && Bounded(s.control)
    && s.feedback.cap == Depth(FeedbackQ) && Bounded(s.feedback)
    && s.speed.cap == Depth(SpeedQ) && Bounded(s.speed)
    && s.errors.cap == Depth(ErrorQ) && Bounded(s.errors)
    && s.display.cap == Depth(DisplayQ) && Bounded(s.display)
  }

  /** The state after `app_main`: empty queues of the configured depths,
      held samples at 0, recovery at its base priority, no motor calls. */
  function Init(): (s: AppState)
    ensures Wf(s)
    ensures forall id: QueueId :: Len(s, id) == 0
    ensures s.desiredHeld == 0 && s.currentHeld == 0
    ensures s.recoveryPriority == BasePriority && s.motorCalls == []
  {
    AppState(Make(Depth(ControlQ)), Make(Depth(FeedbackQ)), Make(Depth(SpeedQ)),
             Make(Depth(ErrorQ)), Make(Depth(DisplayQ)), 0, 0, BasePriority, [])
  }

  // ---------------------------------------------------------------------
  // Backpressure reporting and recovery
  // ---------------------------------------------------------------------

  /** A producer's reaction to a failed send: one non-blocking attempt to
      queue `{name, target}` on the error queue (lost if that is full), then
      the recovery task's priority is raised whatever became of the
      report. */
  function Report(s: AppState, name: string, target: QueueId): (r: AppState)
    ensures r.recoveryPriority == RaisedPriority
    ensures !Full(s.errors) ==> r.errors.items == s.errors.items + [TaskInfo(Some(name), target)]
    ensures Full(s.errors) ==> r.errors == s.errors
    ensures r.(errors := s.errors, recoveryPriority := s.recoveryPriority) == s
    ensures Wf(s) ==> Wf(r)
  {
    s.(errors := TrySend(s.errors, TaskInfo(Some(name), target)).queue, recoveryPriority := RaisedPriority)
  }

  /** `xQueueReset` on the queue a report names. */
  function ResetQueue(s: AppState, id: QueueId): (r: AppState)
    ensures Len(r, id) == 0
    ensures forall other: QueueId :: other != id ==> SameQueue(s, r, other)
    ensures r.desiredHeld == s.desiredHeld && r.currentHeld == s.currentHeld
    ensures r.recoveryPriority == s.recoveryPriority && r.motorCalls == s.motorCalls
    ensures Wf(s) ==> Wf(r)
  {
    match id
    case ControlQ => s.(control := Reset(s.control))
    case FeedbackQ => s.(feedback := Reset(s.feedback))
    case SpeedQ => s.(speed := Reset(s.speed))
    case ErrorQ => s.(errors := Reset(s.errors))
    case DisplayQ => s.(display := Reset(s.display))
  }

  /** One iteration of `vTaskErrorHandle`.  With no report queued the task
      stays blocked and nothing changes.  A report with a task name empties
      the queue it names and brings the task back to its base priority; a
      report without a name is consumed and ignored. */
  function RecoveryStep(s: AppState): (r: AppState)
    ensures |s.errors.items| == 0 ==> r == s
    ensures |s.errors.items| > 0 && s.errors.items[0].name.None? ==>
      r == s.(errors := Queue(s.errors.items[1..], s.errors.cap))
    ensures |s.errors.items| > 0 && s.errors.items[0].name.Some? ==>
      var target := s.errors.items[0].queue;
      && Len(r, target) == 0
      && r.recoveryPriority == BasePriority
      && (forall other: QueueId :: other != target && other != ErrorQ ==> SameQueue(s, r, other))
      && (target != ErrorQ ==> r.errors.items == s.errors.items[1..])
      && r.errors.cap == s.errors.cap
    ensures r.motorCalls == s.motorCalls
    ensures r.desiredHeld == s.desiredHeld && r.currentHeld == s.currentHeld
    ensures Wf(s) ==> Wf(r)
  {
    var rcv := TryReceive(s.errors);
    match rcv.item
    case None => s
    case Some(ev) =>
      var s1 := s.(errors := rcv.queue);
      if ev.name.None? then s1
      else ResetQueue(s1, ev.queue).(recoveryPriority := BasePriority)
  }

  // ---------------------------------------------------------------------
  // Samplers
  // ---------------------------------------------------------------------

  datatype Sampler = DesiredSampler | CurrentSampler

  /** The queue a sampler is started with, and its task name. */
  function Target(w: Sampler): QueueId
  {
    match w
    case DesiredSampler => ControlQ
    case CurrentSampler => FeedbackQ
  }

  function TaskName(w: Sampler): string
  {
    match w
    case DesiredSampler => DesiredTaskName
    case CurrentSampler => CurrentTaskName
  }

  function SampleQueue(s: AppState, w: Sampler): Queue<uint8>
  {
    match w
    case DesiredSampler => s.control
    case CurrentSampler => s.feedback
  }

  function WithSampleQueue(s: AppState, w: Sampler, q: Queue<uint8>): AppState
  {
    match w
    case DesiredSampler => s.(control := q)
    case CurrentSampler => s.(feedback := q)
  }

  /** One iteration of `vTaskSendDesiredAngle` or `vTaskSendCurrentAngle`:
      a non-blocking send of `angle` to the sampler's queue, and a report
      naming that queue if it was full. */
  function SamplerStep(s: AppState, w: Sampler, angle: uint8): (r: AppState)
    ensures !Full(SampleQueue(s, w)) ==>
      r == WithSampleQueue(s, w, Queue(SampleQueue(s, w).items + [angle], SampleQueue(s, w).cap))
    ensures Full(SampleQueue(s, w)) ==>
      r == Report(s, TaskName(w), Target(w)) && SampleQueue(r, w) == SampleQueue(s, w)
    ensures Wf(s) ==> Wf(r)
  {
    var out := TrySend(SampleQueue(s, w), angle);
    if out.passed then WithSampleQueue(s, w, out.queue)
    else Report(s, TaskName(w), Target(w))
  }

  // ---------------------------------------------------------------------
  // Controller
  // ---------------------------------------------------------------------

  /** The command computed from a (desired, current) pair: the speed is the
      distance between them, which always fits in eight bits, and the
      direction is forward unless the current angle is past the desired
      one. */
  function Command(desired: uint8, current: uint8): (cmd: MotorCommand)
    ensures cmd.speed == Abs(desired - current)
    ensures cmd.direction <==> desired >= current
  {
    var speed := if desired > current then desired - current else current - desired;
    MotorCommand(speed, desired >= current)
  }

  /** The angle a command steers toward from `current`. */
  function Aim(current: uint8, cmd: MotorCommand): int
  {
    if cmd.direction then current + cmd.speed else current - cmd.speed
  }

  /** The command loses nothing: from the current angle it leads back to
      exactly the desired angle. */
  lemma CommandAimsAtDesired(desired: uint8, current: uint8)
    ensures Aim(current, Command(desired, current)) == desired
  {
  }

  /** A zero command is issued exactly when the angles agree, and it is a
      forward command: there is no separate stop. */
  lemma CommandZeroIffAtTarget(desired: uint8, current: uint8)
    ensures Command(desired, current).speed == 0 <==> desired == current
    ensures desired == current ==> Command(desired, current) == MotorCommand(0, true)
  {
  }

  /** A received sample, or the value held from earlier cycles when the
      queue yields nothing. */
  function HeadOr(q: Queue<uint8>, held: uint8): uint8
  {
    if |q.items| > 0 then q.items[0] else held
  }

  /** The motor-command half of a controller cycle, after both samples are
      in: send the command, report the speed queue if full. */
  function EmitCommand(s: AppState, cmd: MotorCommand): (r: AppState)
    ensures !Full(s.speed) ==> r == s.(speed := Queue(s.speed.items + [cmd], s.speed.cap))
    ensures Full(s.speed) ==> r == Report(s, ProcessedTaskName, SpeedQ)
  {
    var out := TrySend(s.speed, cmd);
    if out.passed then s.(speed := out.queue) else Report(s, ProcessedTaskName, SpeedQ)
  }

  /** The display half of a controller cycle: send the sample, and if the
      display queue is full report -- as the code is written -- the
      current-angle queue rather than the display queue. */
  function EmitDisplay(s: AppState, sample: AngleData): (r: AppState)
    ensures !Full(s.display) ==> r == s.(display := Queue(s.display.items + [sample], s.display.cap))
    ensures Full(s.display) ==> r == Report(s, ProcessedTaskName, FeedbackQ)
  {
    var out := TrySend(s.display, sample);
    if out.passed then s.(display := out.queue) else Report(s, ProcessedTaskName, FeedbackQ)
  }

  /** The error queue after a controller cycle's reports: one non-blocking
      send naming the speed queue if that was full, then one naming the
      current-angle queue if the display queue was full. */
  function ControllerReports(errors: Queue<TaskInfo>, speedFull: bool, displayFull: bool): Queue<TaskInfo>
  {
    var e1 := if speedFull then TrySend(errors, TaskInfo(Some(ProcessedTaskName), SpeedQ)).queue else errors;
    if displayFull then TrySend(e1, TaskInfo(Some(ProcessedTaskName), FeedbackQ)).queue else e1
  }

  /** One iteration of `vTaskProcessed`: take a desired and a current sample
      (holding the previous value of either when none arrives), compute the
      command, and emit the command and the display sample. */
  function ControllerCycle(s: AppState): (r: AppState)
    ensures r.desiredHeld == HeadOr(s.control, s.desiredHeld)
    ensures r.currentHeld == HeadOr(s.feedback, s.currentHeld)
    ensures |s.control.items| > 0 ==> r.control.items == s.control.items[1..]
    ensures |s.control.items| == 0 ==> r.control == s.control
    ensures |s.feedback.items| > 0 ==> r.feedback.items == s.feedback.items[1..]
    ensures |s.feedback.items| == 0 ==> r.feedback == s.feedback
    ensures !Full(s.speed) ==>
      r.speed.items == s.speed.items + [Command(r.desiredHeld, r.currentHeld)]
    ensures Full(s.speed) ==> r.speed == s.speed
    ensures !Full(s.display) ==>
      r.display.items == s.display.items + [AngleData(r.currentHeld, r.desiredHeld)]
    ensures Full(s.display) ==> r.display == s.display
    ensures r.errors == ControllerReports(s.errors, Full(s.speed), Full(s.display))
    ensures |s.errors.items| + 2 <= s.errors.cap ==>
      r.errors.items == s.errors.items
        + (if Full(s.speed) then [TaskInfo(Some(ProcessedTaskName), SpeedQ)] else [])
        + (if Full(s.display) then [TaskInfo(Some(ProcessedTaskName), FeedbackQ)] else [])
    ensures r.recoveryPriority == if Full(s.speed) || Full(s.display) then RaisedPriority else s.recoveryPriority
    ensures r.control.cap == s.control.cap && r.feedback.cap == s.feedback.cap
    ensures r.speed.cap == s.speed.cap && r.display.cap == s.display.cap && r.errors.cap == s.errors.cap
    ensures r.motorCalls == s.motorCalls
    ensures Wf(s) ==> Wf(r)
  {
    var d := TryReceive<uint8>(s.control);
    var desired := if d.item.Some? then d.item.value else s.desiredHeld;
    var c := TryReceive<uint8>(s.feedback);
    var current := if c.item.Some? then c.item.value else s.currentHeld;
    var s1 := s.(control := d.queue, feedback := c.queue, desiredHeld := desired, currentHeld := current);
    var sample := AngleData(current, desired);
    var s2 := EmitCommand(s1, Command(desired, current));
    EmitDisplay(s2, sample)
  }

  // ---------------------------------------------------------------------
  // Actuation and display consumers
  // ---------------------------------------------------------------------

  /** One iteration of `vTaskControlMotor`: each received command becomes a
      direction call followed by a speed call. */
  function ActuationStep(s: AppState): (r: AppState)
    ensures |s.speed.items| == 0 ==> r == s
    ensures |s.speed.items| > 0 ==>
      var cmd := s.speed.items[0];
      && r.motorCalls == s.motorCalls + [SetDirection(cmd.direction), SetSpeed(cmd.speed)]
      && r.speed.items == s.speed.items[1..] && r.speed.cap == s.speed.cap
      && r.(motorCalls := s.motorCalls, speed := s.speed) == s
    ensures Wf(s) ==> Wf(r)
  {
    var rcv := TryReceive(s.speed);
    match rcv.item
    case None => s
    case Some(cmd) =>
      s.(speed := rcv.queue, motorCalls := s.motorCalls + [SetDirection(cmd.direction), SetSpeed(cmd.speed)])
  }

  /** One iteration of `vTaskDisplay`: a sample is taken off the display
      queue (and only logged). */
  function DisplayStep(s: AppState): (r: AppState)
    ensures |s.display.items| == 0 ==> r == s
    ensures |s.display.items| > 0 ==>
      r == s.(display := Queue(s.display.items[1..], s.display.cap))
    ensures Wf(s) ==> Wf(r)
  {
    var rcv := TryReceive(s.display);
    s.(display := rcv.queue)
  }
}

=== FILE: app_props.dfy ===
/** Properties of the application pipeline over sequences of task
    iterations: the invariant every reachable state keeps, the
    backpressure-and-recovery protocol end to end, and the consequence of
    the controller reporting the wrong queue when the display queue is
    full. */
module AppProps {
  import opened CTypes
  import opened BoundedQueue
  import opened App

  /** A command as the controller builds it: zero speed only forward. */
  predicate Shaped(cmd: MotorCommand)
  {
    cmd.speed == 0 ==> cmd.direction
  }

  /** The motor driver sees calls in (direction, speed) pairs, each pair
      coming from a shaped command. */
  predicate Paired(calls: seq<MotorCall>)
    decreases |calls|
  {
    || |calls| == 0
    || (&& |calls| >= 2
        && calls[0].SetDirection? && calls[1].SetSpeed?
        && (calls[1].speed == 0 ==> calls[0].forward)
        && Paired(calls[2..]))
  }

  lemma {:induction false} PairedAppend(a: seq<MotorCall>, b: seq<MotorCall>)
    requires Paired(a) && Paired(b)
    ensures Paired(a + b)
    decreases |a|
  {
    if |a| > 0 {
      PairedAppend(a[2..], b);
      assert (a + b)[0] == a[0] && (a + b)[1] == a[1];
      assert (a + b)[2..] == a[2..] + b;
    } else {
      assert a + b == b;
    }
  }

  /** Paired calls come two by two. */
  lemma {:induction false} PairedIsEven(calls: seq<MotorCall>)
    requires Paired(calls)
    ensures |calls| % 2 == 0
    decreases |calls|
  {
    if |calls| > 0 {
      PairedIsEven(calls[2..]);
    }
  }

  /** What holds of every state the pipeline can reach. */
  predicate Inv(s: AppState)
  {
    && Wf(s)
    && (forall i :: 0 <= i < |s.speed.items| ==> Shaped(s.speed.items[i]))
    && Paired(s.motorCalls)
    && s.recoveryPriority in {BasePriority, RaisedPriority}
  }

  /** The controller only ever queues shaped commands. */
  lemma ControllerKeepsInv(s: AppState)
    requires Inv(s)
    ensures Inv(ControllerCycle(s))
  {
  }

  /** The actuation task turns a shaped command into one more pair. */
  lemma ActuationKeepsInv(s: AppState)
    requires Inv(s)
    ensures Inv(ActuationStep(s))
  {
    if |s.speed.items| > 0 {
      var cmd := s.speed.items[0];
      assert Shaped(cmd);
      var pair := [SetDirection(cmd.direction), SetSpeed(cmd.speed)];
      assert Paired(pair[2..]);
      PairedAppend(s.motorCalls, pair);
    }
  }

  /** One iteration of one task. */
  datatype Event =
    | SendDesired(angle: uint8)
    | SendCurrent(angle: uint8)
    | Control
    | Recover
    | Actuate
    | Show

  function Step(s: AppState, ev: Event): (r: AppState)
    requires Inv(s)
    ensures Inv(r)
  {
    match ev
    case SendDesired(a) => SamplerStep(s, DesiredSampler, a)
    case SendCurrent(a) => SamplerStep(s, CurrentSampler, a)
    case Control =>
      ControllerKeepsInv(s);
      ControllerCycle(s)
    case Recover => RecoveryStep(s)
    case Actuate =>
      ActuationKeepsInv(s);
      ActuationStep(s)
    case Show => DisplayStep(s)
  }

  /** Any interleaving of task iterations from the start-up state keeps
      every queue within its depth, never tells the motor to go backward
      at zero speed, and leaves the recovery task at priority 1 or 7. */
  function Run(s: AppState, evs: seq<Event>): (r: AppState)
    requires Inv(s)
    ensures Inv(r)
    ensures |r.motorCalls| % 2 == 0
    decreases |evs|
  {
    if |evs| == 0 then
      PairedIsEven(s.motorCalls);
      s
    else Run(Step(s, evs[0]), evs[1..])
  }

  lemma InitSatisfiesInv()
    ensures Inv(Init())
  {
  }

  /** A sampler meeting a full queue leaves that queue untouched, files
      exactly one report naming it when the error queue has room (and loses
      it silently otherwise), and raises the recovery task either way. */
  lemma SamplerBackpressure(s: AppState, w: Sampler, angle: uint8)
    requires Wf(s) && Full(SampleQueue(s, w))
    ensures var r := SamplerStep(s, w, angle);
      && SampleQueue(r, w) == SampleQueue(s, w)
      && r.recoveryPriority == RaisedPriority
      && (Full(s.errors) ==> r.errors == s.errors)
      && (!Full(s.errors) ==> r.errors.items == s.errors.items + [TaskInfo(Some(TaskName(w)), Target(w))])
  {
  }

  /** The protocol end to end: a sampler hits a full queue with no other
      report pending; the recovery task's next iteration empties that queue
      and drops back to its base priority; the sampler's next send then
      succeeds and is the only item in the queue. */
  lemma BackpressureRecoveredBySingleReset(s: AppState, w: Sampler, a: uint8, b: uint8)
    requires Wf(s) && Full(SampleQueue(s, w)) && |s.errors.items| == 0
    ensures var r1 := SamplerStep(s, w, a);
            var r2 := RecoveryStep(r1);
            var r3 := SamplerStep(r2, w, b);
      && r1.recoveryPriority == RaisedPriority
      && r1.errors.items == [TaskInfo(Some(TaskName(w)), Target(w))]
      && |SampleQueue(r2, w).items| == 0
      && r2.recoveryPriority == BasePriority
      && SampleQueue(r3, w).items == [b]
      && r3.errors.items == []
  {
    var r1 := SamplerStep(s, w, a);
    var r2 := RecoveryStep(r1);
    assert Len(r2, Target(w)) == 0;
  }

  /** A recovery for a sampler's queue makes the next send to it succeed,
      since every depth is at least one. */
  lemma SendAfterRecoveryPasses(s: AppState, w: Sampler, b: uint8)
    requires Wf(s) && |s.errors.items| > 0
    requires s.errors.items[0] == TaskInfo(Some(TaskName(w)), Target(w))
    ensures !Full(SampleQueue(RecoveryStep(s), w))
    ensures SampleQueue(SamplerStep(RecoveryStep(s), w, b), w).items == [b]
  {
    assert Len(RecoveryStep(s), Target(w)) == 0;
  }

  /** When only the display queue is full, the controller's report names the
      current-angle queue; recovery then discards the pending current-angle
      samples and leaves the display queue full. */
  lemma DisplayBackpressureResetsFeedbackQueue(s: AppState)
    requires Wf(s) && Full(s.display) && !Full(s.speed) && |s.errors.items| == 0
    ensures var r1 := ControllerCycle(s);
            var r2 := RecoveryStep(r1);
      && r1.errors.items == [TaskInfo(Some(ProcessedTaskName), FeedbackQ)]
      && |r2.feedback.items| == 0
      && r2.display == s.display && Full(r2.display)
  {
    var r1 := ControllerCycle(s);
    assert Len(RecoveryStep(r1), FeedbackQ) == 0;
  }

  /** The display sample of a cycle carries exactly the pair the motor
      command of that cycle was computed from. */
  lemma DisplayMatchesCommand(s: AppState)
    requires !Full(s.speed) && !Full(s.display)
    ensures var r := ControllerCycle(s);
            var cmd := r.speed.items[|r.speed.items| - 1];
            var sample := r.display.items[|r.display.items| - 1];
      && cmd == Command(sample.desired, sample.current)
      && Aim(sample.current, cmd) == sample.desired
  {
    var r := ControllerCycle(s);
    CommandAimsAtDesired(r.desiredHeld, r.currentHeld);
  }

  /** Sample-and-hold from start-up, on the hold branch of the controller:
      with no samples yet it holds 0 for both angles and commands forward at
      speed 0; a later desired sample of 30 with still no current sample
      replaces only the desired value.  The program's receives wait without
      limit, so this run is one the model admits beyond the program's. */
  lemma HoldStartsAtZero()
    ensures var r := Run(Init(), [Control]);
      && r.desiredHeld == 0 && r.currentHeld == 0
      && r.speed.items == [MotorCommand(0, true)]
    ensures var r := Run(Init(), [Control, SendDesired(30), Control]);
      && r.desiredHeld == 30 && r.currentHeld == 0
      && r.speed.items == [MotorCommand(0, true), MotorCommand(30, true)]
  {
  }

  /** A desired angle of 30 against a current angle of 0 reaches the motor
      as a forward direction call followed by a speed call of 30 -- the
      distance itself, with no gain applied. */
  lemma EndToEndExample()
    ensures var r := Run(Init(), [SendDesired(30), SendCurrent(0), Control, Actuate]);
            r.motorCalls == [SetDirection(true), SetSpeed(30)]
  {
  }
}

=== FILE: bounded_queue.dfy ===
/** A FreeRTOS queue as the application uses it: a FIFO with a fixed
    capacity, a non-blocking send that fails when the queue is full, a
    receive that yields nothing when it is empty, and a reset that empties
    it.  Blocking waits are not modelled; an empty queue is a receive that
    did not succeed. */
module BoundedQueue {
  import opened CTypes

  datatype Queue<T> = Queue(items: seq<T>, cap: nat)

  predicate Bounded<T>(q: Queue<T>)
  {
    |q.items| <= q.cap
  }

  predicate Full<T>(q: Queue<T>)
  {
    |q.items| >= q.cap
  }

  /** `xQueueCreate`: an empty queue of the given depth. */
  function Make<T>(cap: nat): (q: Queue<T>)
    ensures q.items == [] && q.cap == cap
    ensures Bounded(q)
    ensures !Full(q) <==> cap >= 1
  {
    Queue([], cap)
  }

  datatype SendOutcome<T> = SendOutcome(passed: bool, queue: Queue<T>)

  /** `xQueueSend` with a zero wait: appends at the tail when there is room,
      otherwise fails and leaves the queue as it was. */
  function TrySend<T>(q: Queue<T>, x: T): (r: SendOutcome<T>)
    ensures r.passed <==> !Full(q)
    ensures r.passed ==> r.queue.items == q.items + [x] && r.queue.cap == q.cap
    ensures !r.passed ==> r.queue == q
    ensures Bounded(q) ==> Bounded(r.queue)
  {
    if |q.items| < q.cap then SendOutcome(true, Queue(q.items + [x], q.cap))
    else SendOutcome(false, q)
  }

  datatype ReceiveOutcome<T> = ReceiveOutcome(item: Option<T>, queue: Queue<T>)

  /** `xQueueReceive`: removes and yields the head when there is one. */
  function TryReceive<T>(q: Queue<T>): (r: ReceiveOutcome<T>)
    ensures r.item.Some? <==> |q.items| > 0
    ensures |q.items| > 0 ==> r.item.value == q.items[0] && [r.item.value] + r.queue.items == q.items
    ensures |q.items| == 0 ==> r.queue == q
    ensures r.queue.cap == q.cap
    ensures Bounded(q) ==> Bounded(r.queue) && (|q.items| > 0 ==> !Full(r.queue))
  {
    if |q.items| == 0 then ReceiveOutcome(None, q)
    else ReceiveOutcome(Some(q.items[0]), Queue(q.items[1..], q.cap))
  }

  /** `xQueueReset`: discards every unread item; the depth is kept. */
  function Reset<T>(q: Queue<T>): (r: Queue<T>)
    ensures r.items == [] && r.cap == q.cap
    ensures Bounded(r) && (q.cap >= 1 ==> !Full(r))
  {
    Queue([], q.cap)
  }

  /** Non-blocking sends of several items, in order; failed sends drop
      their item. */
  function SendAll<T>(q: Queue<T>, xs: seq<T>): Queue<T>
    decreases |xs|
  {
    if |xs| == 0 then q else SendAll(TrySend(q, xs[0]).queue, xs[1..])
  }

  /** While there is room, non-blocking sends lose nothing and keep the
      order they were made in. */
  lemma {:induction false} SendAllWithRoomAppends<T>(q: Queue<T>, xs: seq<T>)
    requires |q.items| + |xs| <= q.cap
    ensures SendAll(q, xs).items == q.items + xs
    ensures SendAll(q, xs).cap == q.cap
    decreases |xs|
  {
    if |xs| > 0 {
      var q1 := TrySend(q, xs[0]).queue;
      SendAllWithRoomAppends(q1, xs[1..]);
      assert q1.items + xs[1..] == q.items + xs;
    }
  }

  /** Receives repeated until one yields nothing: the items in the order
      they were received. */
  function Drain<T>(q: Queue<T>): seq<T>
    decreases |q.items|
  {
    var r := TryReceive(q);
    if r.item.None? then [] else [r.item.value] + Drain(r.queue)
  }

  /** Receives hand out exactly what the queue holds, head first. */
  lemma {:induction false} DrainYieldsItemsInOrder<T>(q: Queue<T>)
    ensures Drain(q) == q.items
    decreases |q.items|
  {
    if |q.items| > 0 {
      DrainYieldsItemsInOrder(TryReceive(q).queue);
    }
  }

  /** First in, first out: sends made while there is room, then receives
      until the queue is empty, hand back what was queued before and then
      every item sent, in the order sent. */
  lemma SendAllThenDrainRoundTrip<T>(q: Queue<T>, xs: seq<T>)
    requires |q.items| + |xs| <= q.cap
    ensures Drain(SendAll(q, xs)) == q.items + xs
  {
    SendAllWithRoomAppends(q, xs);
    DrainYieldsItemsInOrder(SendAll(q, xs));
  }

  /** A send followed by a receive on an empty queue hands back the item
      sent: the queue is first-in first-out. */
  lemma SendThenReceiveRoundTrip<T>(q: Queue<T>, x: T, y: T)
    requires q.cap >= 2 && q.items == []
    ensures var q1 := TrySend(TrySend(q, x).queue, y).queue;
            var r := TryReceive(q1);
            r.item == Some(x) && TryReceive(r.queue).item == Some(y)
  {
  }
}

=== FILE: ctypes.dfy ===
/** Fixed-width C integer types, an optional value, and C99 remainder.

    Dafny's `%` is Euclidean: for a positive divisor the remainder is never
    negative.  C's `%` truncates toward zero, so its remainder takes the sign
    of the dividend.  `CRem` states the C operator explicitly; the lemmas at
    the end relate it to Dafny's `%`, which is what the encoder driver's
    sign-correcting steps are meant to compute.
 */
module CTypes {

  type uint8 = x: int | 0 <= x < 0x100
  type uint16 = x: int | 0 <= x < 0x1_0000
  type uint32 = x: int | 0 <= x < 0x1_0000_0000
  type int32 = x: int | -0x8000_0000 <= x < 0x8000_0000

  /** A value that may be absent, as a possibly-null C pointer. */
  datatype Option<+T> = None | Some(value: T)

  function Abs(x: int): (r: int)
    ensures r >= 0
  {
    if x < 0 then -x else x
  }

  /** Euclidean division is unique: any quotient/remainder pair with the
      remainder in [0, n) is the one Dafny's `/` and `%` produce. */
  lemma ModUnique(x: int, n: int, q: int, r: int)
    requires n > 0
    requires 0 <= r < n
    requires x == q * n + r
    ensures x % n == r
    ensures x / n == q
  {
    var q', r' := x / n, x % n;
    var d := q - q';
    assert d * n == q * n - q' * n;
    assert d * n == r' - r;
    if d > 0 {
      MulAtLeast(d, n);
    } else if d < 0 {
      MulAtLeast(-d, n);
    }
  }

  lemma MulAtLeast(d: int, n: int)
    requires d >= 1 && n > 0
    ensures d * n >= n
  {
    assert d * n == (d - 1) * n + n;
    assert (d - 1) * n >= 0;
  }

  /** Adding a multiple of n does not change the Euclidean remainder. */
  lemma ModShift(x: int, n: int, k: int)
    requires n > 0
    ensures (x + k * n) % n == x % n
  {
    ModUnique(x + k * n, n, x / n + k, x % n);
  }

  /** Remainder of a sum depends only on the summands' remainders. */
  lemma ModAdd(a: int, b: int, n: int)
    requires n > 0
    ensures (a % n + b) % n == (a + b) % n
  {
    ModShift(a % n + b, n, a / n);
  }

  /** C99 `a % b`: the remainder of division truncated toward zero.  Its
      magnitude is below |b|, its sign follows the dividend, and it is
      congruent to `a` modulo `b`. */
  function CRem(a: int, b: int): (r: int)
    requires b != 0
    ensures a >= 0 ==> 0 <= r < Abs(b)
    ensures a < 0 ==> -Abs(b) < r <= 0
    ensures r % Abs(b) == a % Abs(b)
  {
    var n := Abs(b);
    if a >= 0 then
      ModUnique(a % n, n, 0, a % n);
      a % n
    else
      var m := (-a) % n;
      ModUnique(-a, n, (-a) / n, m);
      if m == 0 then
        ModUnique(a, n, -((-a) / n), 0);
        0
      else
        ModUnique(a, n, -((-a) / n) - 1, n - m);
        ModUnique(-m, n, -1, n - m);
        -m
  }

  /** Two values congruent modulo n with the first in [0, n): the first is
      the Euclidean remainder of the second. */
  lemma CanonicalResidue(r: int, a: int, n: int)
    requires n > 0
    requires 0 <= r < n
    requires r % n == a % n
    ensures r == a % n
  {
    ModUnique(r, n, 0, r);
  }

  /** The one-step sign correction `t = a % n; if (t < 0) t += n;` yields
      the Euclidean remainder. */
  lemma AddIfNegativeIsEuclidean(a: int, n: int)
    requires n > 0
    ensures var t := CRem(a, n); (if t < 0 then t + n else t) == a % n
  {
    var t := CRem(a, n);
    if t < 0 {
      ModShift(t, n, 1);
      CanonicalResidue(t + n, a, n);
    } else {
      CanonicalResidue(t, a, n);
    }
  }

  /** The two-step sign correction `(a % n + n) % n`, with both `%` the C
      operator, yields the Euclidean remainder for every dividend. */
  lemma AddThenRemIsEuclidean(a: int, n: int)
    requires n > 0
    ensures CRem(CRem(a, n) + n, n) == a % n
  {
    var t := CRem(a, n);
    assert t + n > 0;
    var u := CRem(t + n, n);
    ModShift(t, n, 1);
    CanonicalResidue(u, a, n);
  }
}

=== FILE: ky040.dfy ===
/** The KY-040 rotary encoder driver with its hardware calls taken out.

    An encoder is a signed tick counter kept in [0, span), the inclusive
    angle range [angMin, angMax] it maps onto, a debounce window and the
    timestamp of the last accepted clock edge, and a direction-reversal
    flag.  The timer reading and the DT pin level become parameters; a
    possibly-null handle is an `Option<Encoder>`.  Every operation is one
    atomic step, as the driver's critical sections intend.
 */
module Ky040 {
  import opened CTypes

  /** An `esp_err_t` code other than `ESP_OK` (0), `ESP_ERR_NO_MEM`
      (0x101), `ESP_ERR_INVALID_ARG` (0x102) and `ESP_ERR_INVALID_STATE`
      (0x103), which have constructors of their own. */
  type OtherCode = c: int | c != 0 && c != 0x101 && c != 0x102 && c != 0x103 witness -1

  /** The `esp_err_t` codes the driver returns or inspects; every code has
      exactly one representation. */
  datatype Status = EspOk | ErrInvalidArg | ErrInvalidState | ErrNoMem | ErrOther(code: OtherCode)

  /** The configuration record without its GPIO pin numbers. */
  datatype Config = Config(reverseDir: bool, debounceUs: uint32, angleMin: uint16, angleMax: uint16)

  datatype Encoder = Encoder(
    ticks: int32,
    lastEdgeUs: int,
    debounceUs: uint32,
    reverse: bool,
    angMin: uint16,
    angMax: uint16,
    span: uint16)

  /** The range fields agree with each other: span counts the angles. */
  predicate RangeCoherent(e: Encoder)
  {
    e.span >= 1 && e.span == e.angMax - e.angMin + 1
  }

  /** The driver's invariant: a coherent range and ticks inside [0, span). */
  predicate Valid(e: Encoder)
  {
    RangeCoherent(e) && 0 <= e.ticks < e.span
  }

  /** A range the driver accepts: ordered, and not the one pair (0, 65535)
      whose span does not fit in 16 bits. */
  predicate AcceptableRange(angleMin: uint16, angleMax: uint16)
  {
    angleMin <= angleMax && !(angleMin == 0 && angleMax == 0xFFFF)
  }

  /** The range validation shared by create and set_range: the span is
      computed in 32-bit unsigned arithmetic and must lie in [1, 65535]. */
  function CheckRange(angleMin: uint16, angleMax: uint16): (span: Option<uint16>)
    ensures span.Some? <==> AcceptableRange(angleMin, angleMax)
    ensures span.Some? ==> 1 <= span.value && span.value == angleMax - angleMin + 1
  {
    if angleMax < angleMin then None
    else
      var span := (angleMax - angleMin + 1) % 0x1_0000_0000;
      if span == 0 || span > 0xFFFF then None else Some(span)
  }

  // ---------------------------------------------------------------------
  // Process-wide ISR service installation
  // ---------------------------------------------------------------------

  /** The outcome of an install attempt: the new value of the process-wide
      "installed" flag, the status returned, and whether the underlying GPIO
      install routine was called. */
  datatype InstallOutcome = InstallOutcome(installed: bool, status: Status, called: bool)

  /** `ky040_install_isr_service_once`; `installStatus` is what the GPIO
      install routine returns if it is called. */
  function InstallIsrServiceOnce(installed: bool, installStatus: Status): (r: InstallOutcome)
    ensures installed ==> !r.called && r.installed && r.status == EspOk
    ensures !installed ==> r.called
    ensures r.installed <==> r.status == EspOk
    ensures !installed && installStatus in {EspOk, ErrInvalidState} ==> r.status == EspOk
    ensures r.status != EspOk ==> r.status == installStatus
    ensures !installed && installStatus !in {EspOk, ErrInvalidState} ==>
      !r.installed && r.status == installStatus
  {
    if installed then InstallOutcome(true, EspOk, false)
    else if installStatus == ErrInvalidState then InstallOutcome(true, EspOk, true)
    else InstallOutcome(installStatus == EspOk, installStatus, true)
  }

  // ---------------------------------------------------------------------
  // Creation
  // ---------------------------------------------------------------------

  /** The outcome of `ky040_create`: the install flag afterwards, the
      status, and the new encoder when the status is OK. */
  datatype CreateOutcome = CreateOutcome(installed: bool, status: Status, enc: Option<Encoder>)

  /** `ky040_create`.  `cfg` is None for a null config pointer and
      `outGiven` is false for a null output pointer; `allocOk` is false
      when `calloc` returns null; `now` is the timer reading stored as the
      last edge time. */
  function Create(cfg: Option<Config>, outGiven: bool, installed: bool, installStatus: Status, allocOk: bool, now: int): (r: CreateOutcome)
    ensures r.enc.Some? <==> r.status == EspOk
    ensures r.status == EspOk <==>
      cfg.Some? && outGiven && AcceptableRange(cfg.value.angleMin, cfg.value.angleMax)
      && (installed || installStatus in {EspOk, ErrInvalidState}) && allocOk
    ensures (cfg.None? || !outGiven || !AcceptableRange(cfg.value.angleMin, cfg.value.angleMax)) ==>
      r.status == ErrInvalidArg && r.installed == installed
    ensures (&& cfg.Some? && outGiven && AcceptableRange(cfg.value.angleMin, cfg.value.angleMax)
             && !installed && installStatus !in {EspOk, ErrInvalidState}) ==>
      r.status == installStatus && !r.installed
    ensures (&& cfg.Some? && outGiven && AcceptableRange(cfg.value.angleMin, cfg.value.angleMax)
             && (installed || installStatus in {EspOk, ErrInvalidState}) && !allocOk) ==>
      r.status == ErrNoMem && r.installed
    ensures r.status == EspOk ==>
      var e := r.enc.value;
      && Valid(e) && e.ticks == 0 && e.lastEdgeUs == now
      && e.span == cfg.value.angleMax - cfg.value.angleMin + 1
      && e.angMin == cfg.value.angleMin && e.angMax == cfg.value.angleMax
      && e.debounceUs == cfg.value.debounceUs && e.reverse == cfg.value.reverseDir
      && r.installed
  {
    if cfg.None? || !outGiven then CreateOutcome(installed, ErrInvalidArg, None)
    else
      var c := cfg.value;
      match CheckRange(c.angleMin, c.angleMax)
      case None => CreateOutcome(installed, ErrInvalidArg, None)
      case Some(span) =>
        var inst := InstallIsrServiceOnce(installed, installStatus);
        if inst.status != EspOk then CreateOutcome(inst.installed, inst.status, None)
        else if !allocOk then CreateOutcome(inst.installed, ErrNoMem, None)
        else
          var e := Encoder(0, now, c.debounceUs, c.reverseDir, c.angleMin, c.angleMax, span);
          CreateOutcome(inst.installed, EspOk, Some(e))
  }

  // ---------------------------------------------------------------------
  // Interrupt handlers
  // ---------------------------------------------------------------------

  /** The debounce gate's verdict and the timestamp it leaves behind. */
  datatype Gate = Gate(accepted: bool, lastUs: int)

  /** `_debounce_ok`: a zero window accepts everything without touching the
      timestamp; otherwise an edge is accepted when at least the window has
      elapsed since the last accepted edge, and only then is the timestamp
      moved to `now`. */
  function DebounceOk(lastUs: int, minUs: uint32, now: int): (g: Gate)
    ensures minUs == 0 ==> g == Gate(true, lastUs)
    ensures minUs > 0 ==> (g.accepted <==> now - lastUs >= minUs)
    ensures g.accepted && minUs > 0 ==> g.lastUs == now
    ensures !g.accepted ==> g.lastUs == lastUs
  {
    if minUs == 0 then Gate(true, lastUs)
    else if now - lastUs < minUs then Gate(false, lastUs)
    else Gate(true, now)
  }

  /** Whether a clock edge at time `now` passes the encoder's debounce gate. */
  predicate EdgeAccepted(e: Encoder, now: int)
  {
    e.debounceUs == 0 || now - e.lastEdgeUs >= e.debounceUs
  }

  /** The tick delta of an accepted edge: +1 exactly when the DT level is
      low and the direction is not reversed, or the level is high and it is. */
  function EdgeDelta(dt: int, reverse: bool): (d: int)
    ensures d == 1 || d == -1
    ensures d == 1 <==> ((dt == 0) != reverse)
  {
    var delta := if dt == 0 then 1 else -1;
    if reverse then -delta else delta
  }

  /** `ky040_isr_clk` for a rising clock edge at time `now` with the DT pin
      reading `dt`.  The wrap is two conditional corrections, which for a
      counter in [0, span) and a delta of ±1 is the Euclidean remainder. */
  function ClockEdge(e: Encoder, now: int, dt: int): (r: Encoder)
    requires Valid(e)
    ensures Valid(r)
    ensures EdgeAccepted(e, now) ==> r.ticks == (e.ticks + EdgeDelta(dt, e.reverse)) % e.span
    ensures !EdgeAccepted(e, now) ==> r == e
    ensures EdgeAccepted(e, now) && e.debounceUs > 0 ==> r.lastEdgeUs == now
    ensures e.debounceUs == 0 ==> r.lastEdgeUs == e.lastEdgeUs
    ensures r.(ticks := e.ticks, lastEdgeUs := e.lastEdgeUs) == e
  {
    var g := DebounceOk(e.lastEdgeUs, e.debounceUs, now);
    if !g.accepted then e
    else
      var t := e.ticks + EdgeDelta(dt, e.reverse);
      var t1 := if t >= e.span then t - e.span else t;
      var t2 := if t1 < 0 then t1 + e.span else t1;
      WrapStep(e.ticks, EdgeDelta(dt, e.reverse), e.span);
      e.(ticks := t2, lastEdgeUs := g.lastUs)
  }

  /** The two corrections of the clock handler compute the Euclidean
      remainder of a counter in [0, n) moved by ±1. */
  lemma WrapStep(t: int, d: int, n: int)
    requires n >= 1 && 0 <= t < n
    requires d == 1 || d == -1
    ensures var t1 := if t + d >= n then t + d - n else t + d;
            (if t1 < 0 then t1 + n else t1) == (t + d) % n
  {
    var t1 := if t + d >= n then t + d - n else t + d;
    var t2 := if t1 < 0 then t1 + n else t1;
    if t + d >= n {
      ModUnique(t + d, n, 1, t + d - n);
    } else if t + d < 0 {
      ModUnique(t + d, n, -1, t + d + n);
    } else {
      ModUnique(t + d, n, 0, t + d);
    }
  }

  /** `ky040_isr_sw`: a button press re-zeroes the counter. */
  function ButtonEdge(e: Encoder): (r: Encoder)
    ensures r.ticks == 0
    ensures r.(ticks := e.ticks) == e
    ensures RangeCoherent(e) ==> Valid(r) && AngleMod(r, r.ticks) == e.angMin
  {
    e.(ticks := 0)
  }

  // ---------------------------------------------------------------------
  // Task-level API
  // ---------------------------------------------------------------------

  /** `ky040_set_reverse`: only the flag changes. */
  function SetReverse(h: Option<Encoder>, reverse: bool): (r: Option<Encoder>)
    ensures r.None? <==> h.None?
    ensures h.Some? ==> r.value.reverse == reverse && r.value.(reverse := h.value.reverse) == h.value
  {
    match h
    case None => None
    case Some(e) => Some(e.(reverse := reverse))
  }

  /** `ky040_reset_zero`: the same effect as a button press, from a task. */
  function ResetZero(h: Option<Encoder>): (r: Option<Encoder>)
    ensures r.None? <==> h.None?
    ensures h.Some? ==> r.value.ticks == 0 && r.value.(ticks := h.value.ticks) == h.value
    ensures h.Some? && RangeCoherent(h.value) ==> Valid(r.value) && GetAngle(r) == h.value.angMin
  {
    match h
    case None => None
    case Some(e) => Some(e.(ticks := 0))
  }

  /** The tick rescaling of `ky040_set_range`: a counter at or above the new
      span is reduced with C's `%`; a negative one is brought into range with
      `(t % span + span) % span`.  Either way the result is the Euclidean
      remainder, so every int32 counter lands in [0, span). */
  function Rescale(ticks: int32, span: uint16): (r: int32)
    requires span >= 1
    ensures 0 <= r < span
    ensures r == ticks % span
    ensures 0 <= ticks < span ==> r == ticks
  {
    var t1 := if ticks >= span then CRem(ticks, span) else ticks;
    var r := if t1 < 0 then CRem(CRem(t1, span) + span, span) else t1;
    assert r == ticks % span by {
      if ticks >= span {
        AddIfNegativeIsEuclidean(ticks, span);
      } else if ticks < 0 {
        AddThenRemIsEuclidean(ticks, span);
      } else {
        ModUnique(ticks, span, 0, ticks);
      }
    }
    r
  }

  datatype SetRangeOutcome = SetRangeOutcome(status: Status, enc: Option<Encoder>)

  /** `ky040_set_range`: validated exactly as creation is; a rejected range
      leaves the encoder untouched, an accepted one replaces the range and
      rescales the counter into the new span. */
  function SetRange(h: Option<Encoder>, angleMin: uint16, angleMax: uint16): (r: SetRangeOutcome)
    ensures h.None? ==> r == SetRangeOutcome(ErrInvalidArg, None)
    ensures h.Some? && !AcceptableRange(angleMin, angleMax) ==> r == SetRangeOutcome(ErrInvalidArg, h)
    ensures h.Some? && AcceptableRange(angleMin, angleMax) ==>
      && r.status == EspOk && r.enc.Some?
      && var e := r.enc.value;
      && Valid(e) && e.angMin == angleMin && e.angMax == angleMax
      && e.ticks == h.value.ticks % e.span
      && e.(ticks := h.value.ticks, angMin := h.value.angMin, angMax := h.value.angMax, span := h.value.span) == h.value
  {
    match h
    case None => SetRangeOutcome(ErrInvalidArg, None)
    case Some(e) =>
      match CheckRange(angleMin, angleMax)
      case None => SetRangeOutcome(ErrInvalidArg, h)
      case Some(span) =>
        var e' := e.(angMin := angleMin, angMax := angleMax, span := span, ticks := Rescale(e.ticks, span));
        SetRangeOutcome(EspOk, Some(e'))
  }

  /** `ky040_get_ticks`: the raw counter, 0 for a null handle. */
  function GetTicks(h: Option<Encoder>): (r: int32)
    ensures h.None? ==> r == 0
    ensures h.Some? ==> r == h.value.ticks
    ensures h.Some? && Valid(h.value) ==> 0 <= r < h.value.span
  {
    match h
    case None => 0
    case Some(e) => e.ticks
  }

  /** `_angle_mod`: maps any int32 counter onto the angle range.  The C
      remainder is corrected once when negative, and the sum is cast to 16
      bits; for a coherent range the cast never truncates and the result is
      angMin plus the Euclidean remainder. */
  function AngleMod(e: Encoder, ticks: int32): (r: uint16)
    requires e.span >= 1
    ensures RangeCoherent(e) ==> e.angMin <= r <= e.angMax
    ensures RangeCoherent(e) ==> r == e.angMin + ticks % e.span
  {
    var t := CRem(ticks, e.span);
    var t' := if t < 0 then t + e.span else t;
    AddIfNegativeIsEuclidean(ticks, e.span);
    assert RangeCoherent(e) ==> (e.angMin + t') % 0x1_0000 == e.angMin + t' by {
      if RangeCoherent(e) {
        ModUnique(e.angMin + t', 0x1_0000, 0, e.angMin + t');
      }
    }
    (e.angMin + t') % 0x1_0000
  }

  /** `ky040_get_angle`: 0 for a null handle, otherwise the counter mapped
      onto [angMin, angMax]. */
  function GetAngle(h: Option<Encoder>): (r: uint16)
    requires h.Some? ==> h.value.span >= 1
    ensures h.None? ==> r == 0
    ensures h.Some? && RangeCoherent(h.value) ==>
      h.value.angMin <= r <= h.value.angMax && r == h.value.angMin + h.value.ticks % h.value.span
  {
    match h
    case None => 0
    case Some(e) => AngleMod(e, GetTicks(h))
  }
}

=== FILE: ky040_props.dfy ===
/** Properties of the KY-040 driver that span several operations: the
    invariant over every reachable sequence of interrupts and API calls, the
    net effect of a run of clock edges, the debounce window, and worked
    examples of angle wrap-around, rescaling and range validation. */
module Ky040Props {
  import opened CTypes
  import opened Ky040

  /** One event an encoder can see: an interrupt or an API call on a
      non-null handle. */
  datatype Op =
    | Clock(now: int, dt: int)
    | Button
    | Reset
    | Reverse(reverse: bool)
    | Range(angleMin: uint16, angleMax: uint16)

  function Apply(e: Encoder, op: Op): (r: Encoder)
    requires Valid(e)
    ensures Valid(r)
  {
    match op
    case Clock(now, dt) => ClockEdge(e, now, dt)
    case Button => ButtonEdge(e)
    case Reset => ResetZero(Some(e)).value
    case Reverse(b) => SetReverse(Some(e), b).value
    case Range(lo, hi) => SetRange(Some(e), lo, hi).enc.value
  }

  /** Every reachable encoder state satisfies the invariant, so every angle
      it reports lies inside its configured range. */
  function Run(e: Encoder, ops: seq<Op>): (r: Encoder)
    requires Valid(e)
    ensures Valid(r)
    ensures r.angMin <= GetAngle(Some(r)) <= r.angMax
    decreases |ops|
  {
    if |ops| == 0 then e else Run(Apply(e, ops[0]), ops[1..])
  }

  /** An encoder created successfully and then driven by any sequence of
      events reports angles inside the range of its last accepted
      configuration. */
  lemma CreatedThenRunAngleInRange(cfg: Config, installed: bool, installStatus: Status, allocOk: bool, now: int, ops: seq<Op>)
    requires Create(Some(cfg), true, installed, installStatus, allocOk, now).status == EspOk
    ensures var e := Create(Some(cfg), true, installed, installStatus, allocOk, now).enc.value;
            var r := Run(e, ops);
            Valid(r) && r.angMin <= GetAngle(Some(r)) <= r.angMax
  {
  }

  /** The sum of the deltas a sequence of clock edges would contribute if
      all were accepted. */
  function NetDelta(ops: seq<Op>, reverse: bool): int
  {
    if |ops| == 0 then 0
    else (if ops[0].Clock? then EdgeDelta(ops[0].dt, reverse) else 0) + NetDelta(ops[1..], reverse)
  }

  predicate AllClock(ops: seq<Op>)
  {
    forall i :: 0 <= i < |ops| ==> ops[i].Clock?
  }

  /** With debouncing disabled every clock edge counts: a run of edges moves
      the counter by the sum of their deltas, reduced modulo the span. */
  lemma {:induction false} EdgesWithoutDebounceSumUp(e: Encoder, ops: seq<Op>)
    requires Valid(e) && e.debounceUs == 0
    requires AllClock(ops)
    ensures Run(e, ops).ticks == (e.ticks + NetDelta(ops, e.reverse)) % e.span
    decreases |ops|
  {
    if |ops| == 0 {
      ModUnique(e.ticks, e.span, 0, e.ticks);
    } else {
      var e1 := Apply(e, ops[0]);
      var d := EdgeDelta(ops[0].dt, e.reverse);
      assert AllClock(ops[1..]) by {
        forall i | 0 <= i < |ops[1..]| ensures ops[1..][i].Clock? {
          assert ops[1..][i] == ops[i + 1];
        }
      }
      EdgesWithoutDebounceSumUp(e1, ops[1..]);
      assert e1.ticks == (e.ticks + d) % e.span;
      ModAdd(e.ticks + d, NetDelta(ops[1..], e.reverse), e.span);
    }
  }

  /** Flipping the reversal flag negates the net effect of any later run of
      edges; the ticks already counted are not touched. */
  lemma {:induction false} ReverseNegatesNetDelta(ops: seq<Op>, reverse: bool)
    ensures NetDelta(ops, !reverse) == -NetDelta(ops, reverse)
    decreases |ops|
  {
    if |ops| > 0 {
      ReverseNegatesNetDelta(ops[1..], reverse);
    }
  }

  /** `ky040_set_reverse` is not retroactive: the angle is unchanged at the
      call, and the next accepted edge with the same DT level moves the
      counter the opposite way. */
  lemma SetReverseNotRetroactive(e: Encoder, now: int, dt: int)
    requires Valid(e)
    ensures var e' := SetReverse(Some(e), !e.reverse).value;
      && GetAngle(Some(e')) == GetAngle(Some(e))
      && GetTicks(Some(e')) == GetTicks(Some(e))
      && (EdgeAccepted(e, now) ==>
          ClockEdge(e', now, dt).ticks == (e.ticks - EdgeDelta(dt, e.reverse)) % e.span)
  {
  }

  /** Two clock edges closer together than the debounce window change the
      counter at most once: if the first is accepted the second is dropped,
      and if the first is dropped the pair acts as the second edge alone. */
  lemma DebouncedPairCountsOnce(e: Encoder, now1: int, dt1: int, now2: int, dt2: int)
    requires Valid(e) && e.debounceUs > 0
    requires now2 - now1 < e.debounceUs
    ensures var e2 := ClockEdge(ClockEdge(e, now1, dt1), now2, dt2);
      && (EdgeAccepted(e, now1) ==> e2.ticks == (e.ticks + EdgeDelta(dt1, e.reverse)) % e.span)
      && (!EdgeAccepted(e, now1) ==> e2 == ClockEdge(e, now2, dt2))
  {
  }

  /** `ky040_set_range` applies the same validation as `ky040_create`. */
  lemma SetRangeValidatesLikeCreate(e: Encoder, cfg: Config, now: int)
    ensures SetRange(Some(e), cfg.angleMin, cfg.angleMax).status == ErrInvalidArg
        <==> Create(Some(cfg), true, true, EspOk, true, now).status == ErrInvalidArg
  {
  }

  /** Once the service is installed, later calls succeed without calling the
      GPIO install routine, whatever it would return. */
  lemma InstallOnceIsIdempotent(installed: bool, first: Status, second: Status)
    requires InstallIsrServiceOnce(installed, first).status == EspOk
    ensures var r := InstallIsrServiceOnce(InstallIsrServiceOnce(installed, first).installed, second);
            r == InstallOutcome(true, EspOk, false)
  {
  }

  /** Worked examples: a negative counter wraps to the top of the range,
      shrinking the range rescales the counter by remainder, and a range
      whose span overflows sixteen bits is refused. */
  lemma WorkedExamples()
    ensures AngleMod(Encoder(0, 0, 0, false, 0, 90, 91), -1) == 90
    ensures var e := Encoder(85, 0, 0, false, 0, 90, 91);
            SetRange(Some(e), 0, 9).enc.value.ticks == 5
    ensures CheckRange(0, 0xFFFF).None? && CheckRange(1, 0xFFFF) == Some(0xFFFF)
  {
  }
}
